=== FILE: README.md ===
# file_icon_provider in Dafny

A model of the memoising icon providers of the `file_icon_provider` Rust
crate, with proofs of their caching contracts.

The crate asks the operating system for the icon of a file and hands it back as
raw RGBA pixels. The OS lookup is slow, so a provider wraps it in a cache. This
model covers the generic `FileIconProvider` and the three platform backends:
Linux (GTK/gio), macOS (AppKit) and Windows (Shell/GDI with COM). The OS calls
stay black boxes. A primitive is a function-typed parameter
`(Path, U16) -> Option<Icon>`. Each backend's OS services are gathered in a
record of such functions: `Linux.Gtk`, `MacOs.Cocoa` and `Windows.Shell`.
Every provider operation is a pure function. It returns the new provider
state, the value, and the list of primitive calls it made. That list is how
"a hit does not call the OS" and "a failure is not cached" are stated.

Modules:

- `Base`: `Option`, fixed-width integer ranges, `Icon`, `Request`, `Primitive`,
  and the file `Metadata` a provider consults.
- `Paths`: the Rust standard library rules the cache keys depend on. These
  are `Path::file_name` and `Path::extension` on Unix, and `OsStr::to_str`
  (UTF-8 well-formedness, per Table 3-7 of the Unicode Standard).
- `Memo`: the get-or-fetch step on one ordered-map entry. The three caching
  providers share it.
- `Provider`: `FileIconProvider` (`new`, `icon`, `clear`), keyed by
  (size, extension).
- `Linux`: the theme-name search primitive, and the provider that decides
  which requests bypass the cache.
- `MacOs`: the bitmap-rendering primitive, and the provider keyed by uniform
  type identifier. That provider has a deferred-failure graphics context.
- `Windows`: the COM reference counter, the BGRA-to-RGBA swap, the primitive,
  and the uncached provider.

The cache is only correct under one assumption: the OS gives every file with
the same extension the same icon. `Provider.CacheIsTransparent` states this
assumption and proves what follows from it. If the OS always answers this
way, the cached provider returns exactly what calling the primitive directly
would return.

## Model

| member | source | states |
|---|---|---|
| Memo.GetOrFetch | src/provider.rs:48-50 | The primitive runs exactly when the key is absent or there is no key. A hit returns the stored value. A miss returns what the primitive returned. Nothing is evicted or overwritten, only the requested key can be added, failures leave the map unchanged, and after a successful lookup the key holds the returned value |
| Memo.FailureIsRetried | src/provider.rs:49 | After a failed lookup, repeating it calls the primitive again and returns its new answer |
| Memo.SuccessIsRemembered | src/provider.rs:49-50 | After a successful cacheable lookup, the same key is a hit that returns the same value, whatever the primitive would answer now |
| Paths.FileName | src/provider.rs:47 | The file name is a normal component: non-empty, no separator, neither `.` nor `..`. A path that is a single normal component is its own file name. Which component it is is fixed by the four lemmas below |
| Paths.FileNameOfParentDir | src/provider.rs:47 | A path ending in a `..` component has no file name |
| Paths.FileNameSkipsTrailingSlash | src/provider.rs:47 | A trailing separator is skipped: `a/b/` has the file name of `a/b` |
| Paths.FileNameSkipsTrailingDot | src/provider.rs:47 | A trailing `.` component is skipped: `a/b/.` has the file name of `a/b` |
| Paths.FileNameOfChild | src/provider.rs:47 | The file name is the last component: a normal name after a separator is the file name, whatever directory precedes it |
| Paths.Extension | src/provider.rs:47 | An extension contains no dot. It is exactly the bytes after the last dot of the file name, and at least one byte comes before that dot |
| Paths.ExtensionOfName | src/implementation/linux.rs:71 | Conversely, a file name `stem.ext` with a non-empty stem and no dot in `ext` has extension `ext` |
| Paths.ToStr | src/implementation/linux.rs:71 | `to_str` succeeds exactly when the bytes are well-formed UTF-8, and then yields the same bytes. The same conversion is used at macos.rs:78 and macos.rs:193 |
| Paths.AsciiIsUtf8 | src/implementation/linux.rs:71 | Every ASCII byte string passes `to_str` |
| Paths.ForbiddenByteIsNotUtf8 | src/implementation/linux.rs:71 | A string containing 0xC0, 0xC1 or any byte from 0xF5 upward fails `to_str` |
| Provider.New | src/provider.rs:35-40 | A new provider has an empty cache and keeps the given converter |
| Provider.KeyOf | src/provider.rs:47-48 | A request has a cache key exactly when its path has an extension; the key pairs the requested size with that extension |
| Provider.GetIcon | src/provider.rs:43-55 | The primitive is called at most once, for this path at this size. It is not called exactly when the (size, extension) entry exists, and then the stored value is returned. Otherwise the result is the converted primitive answer. With no extension, or when the primitive fails, the cache is unchanged. No entry is evicted or replaced, only the request's key can be added, and a success leaves the returned value under that key. The converter never changes |
| Provider.Clear | src/provider.rs:58-60 | The cache is empty afterwards and the converter is kept |
| Provider.SameExtensionHits | src/provider.rs:48-50 | A second file with the same extension at the same size is a hit: no primitive call, same value, whatever the OS would answer now |
| Provider.FailureIsRetried | src/provider.rs:49 | A failed lookup leaves nothing behind, so repeating it calls the primitive again |
| Provider.SizesAreIndependent | src/provider.rs:48 | A cached entry for the same extension at another size does not prevent the primitive call, and the lookup does not touch that entry |
| Provider.ClearForcesRefetch | src/provider.rs:58-60 | After `clear`, any lookup calls the primitive exactly once |
| Provider.CacheIsTransparent | src/provider.rs:43-55 | Suppose the OS gives every file with the same extension the same icon, and every entry agrees with the OS. Then a lookup returns exactly the converted primitive answer, and every entry still agrees afterwards |
| Provider.Replay | src/provider.rs:43-55 | Over a run of lookups, there are at most as many primitive calls as requests, and no existing entry is lost or changed |
| Provider.ReplayCallsAddEntries | src/provider.rs:48-50 | While the OS answers every cacheable request, each primitive call adds exactly one entry, and every new key belongs to one of the requests |
| Provider.ReplayCallsAtMostOncePerKey | src/provider.rs:13-20 | While the OS answers, a fresh provider calls the primitive at most once per distinct (size, extension) pair, however many requests it serves |
| Linux.FirstLoaded | src/implementation/linux.rs:27-41 | The search returns the image of the first theme name whose load succeeds, and nothing exactly when every load fails |
| Linux.IconOf | src/implementation/linux.rs:33-37 | The icon carries the image's non-negative width, height and pixel bytes unchanged |
| Linux.GetFileIconOnce | src/implementation/linux.rs:7-42 | GTK is initialised after the call exactly when it was initialised before or initialisation succeeds. Without it there is no icon. An icon comes from the first theme name of the file's content type that loads; every earlier name fails to load. The lookup succeeds whenever GTK is up, the content type, its themed names and a theme exist, and some name loads |
| Linux.New | src/implementation/linux.rs:51-57 | Creation always succeeds, with an empty cache, the given size and the given converter |
| Linux.HasOwnIcon | src/implementation/linux.rs:62-66 | A request calls through when the path is a directory or a symlink, or its mode has the execute bit for owner, group or others (`0o111`). A path whose metadata cannot be read is not exempted on mode grounds |
| Linux.CacheKeyAsWritten | src/implementation/linux.rs:62-84 | As `get_file_icon` decides it, a request is cacheable exactly when it is not a directory, a symlink or executable (`mode & 0o111`), has a UTF-8 extension, and that extension is not the literal `.desktop`. The key is the extension alone |
| Linux.CacheKey | src/implementation/linux.rs:62-84 | The corrected decision: the same, except that the exempted extension is `desktop` |
| Linux.DotDesktopNeverMatches | src/implementation/linux.rs:71-72 | No path has `.desktop` as its extension |
| Linux.DesktopEntryCachedAsWritten | src/implementation/linux.rs:72 | As written, a plain `firefox.desktop` file with mode 0o644 is cached under `desktop` |
| Linux.DesktopEntriesBypass | src/implementation/linux.rs:72 | With the correction, an extension of `desktop` bypasses the cache, and every other request gets the same key as `get_file_icon` computes |
| Linux.NonUtf8ExtensionBypasses | src/implementation/linux.rs:71 | An extension holding a byte that never occurs in UTF-8 (0xC0, 0xC1, 0xF5 and above) fails `to_str` and bypasses the cache, as written and corrected. That any non-UTF-8 extension bypasses is the `ValidUtf8` conjunct of `Linux.CacheKey` |
| Linux.GetFileIconAsWritten | src/implementation/linux.rs:59-85 | As written, keyed by `CacheKeyAsWritten`: the primitive is asked at the provider's size, and only on a bypass or a miss. A hit returns the stored value. A bypass or a failure leaves the cache unchanged. A successful miss stores the value under the extension. Nothing is evicted, and at most the extension's entry is added |
| Linux.GetFileIcon | src/implementation/linux.rs:59-85 | The same lookup keyed by the corrected `CacheKey`, so desktop entries are never served from the cache |
| Linux.DesktopEntryHitAsWritten | src/implementation/linux.rs:72-80 | Once `desktop` is cached, a plain `firefox.desktop` is a hit with no lookup as written, but calls the primitive under the correction |
| Linux.BehavesAsGenericProvider | src/implementation/linux.rs:73-81 | On a cacheable request, the value, the calls and the resulting cache equal those of the generic provider at the fixed size |
| Linux.BypassAlwaysCallsThrough | src/implementation/linux.rs:62-69 | A bypassed request leaves the provider unchanged, and repeating it calls the primitive again |
| MacOs.CreateBitmap | src/implementation/macos.rs:98-124 | Bitmap creation fails only when AppKit refuses it. The bitmap's plane is `size * size * 4` bytes |
| MacOs.PathToNsString | src/implementation/macos.rs:180-200 | The path string exists exactly when the path canonicalises to valid UTF-8, and it is the canonical path |
| MacOs.GetPixels | src/implementation/macos.rs:141-178 | Reading pixels fails exactly when the image is less than 1 wide or high. Otherwise it yields the whole bitmap plane, byte by byte as drawn |
| MacOs.GetFileIconOnce | src/implementation/macos.rs:17-29 | An icon exists exactly when the path resolves, the bitmap and its graphics context can be made, and the file's image is at least 1 wide and high. It is `size` by `size` with `size * size * 4` bytes, each the byte drawn at that position |
| MacOs.New | src/implementation/macos.rs:44-57 | Creation fails exactly when the bitmap cannot be created. A missing context does not fail creation; it is recorded. The cache starts empty and the plane is `size * size * 4` bytes |
| MacOs.TypeIdentifier | src/implementation/macos.rs:73-82 | Directories, paths without a UTF-8 extension, and extensions with no uniform type have no key. Otherwise the key is the type identifier of the extension |
| MacOs.RenderIcon | src/implementation/macos.rs:84-95 | The icon before conversion: it panics exactly when there is no graphics context. With a context and a resolvable path, it is present exactly when the image is at least 1 wide and high. An unresolvable path yields nothing. A rendered icon is `icon_size` square, fills the bitmap plane, and holds the drawn bytes |
| MacOs.GetIcon | src/implementation/macos.rs:84-95 | Panics exactly when there is no graphics context. Otherwise a value exists exactly when the path resolves and the image is at least 1 wide and high, and it is the converter applied to the `icon_size` square icon whose pixels are the whole drawn bitmap plane |
| MacOs.GetFileIcon | src/implementation/macos.rs:59-71 | A hit needs neither the context nor the OS and returns the stored value. Otherwise `get_icon` is called once and its reply is returned. Only a successful reply is inserted, and it is then stored under the identifier. Nothing is evicted, and the bitmap, context, size and converter are kept |
| MacOs.SameTypeSharesEntry | src/implementation/macos.rs:60-81 | Two extensions with the same type identifier share one entry: after the first succeeds, the second is a hit with the same value |
| MacOs.NoContextNeverCaches | src/implementation/macos.rs:86 | Without a context, every call that reaches `get_icon` panics, and the cache never changes |
| MacOs.RenderedIconFillsBitmap | src/implementation/macos.rs:90-93 | For a newly created provider, a rendered icon is `icon_size` square with `icon_size * icon_size * 4` bytes |
| Windows.Initialize | src/implementation/windows.rs:109-118 | `CoInitialize` is called only when the count is 0. If it fails, the result is failure and the counter is unchanged. On success the count rises by exactly 1. The crate's own `CoInitialize` stays outstanding exactly while the count is positive |
| Windows.Uninitialize | src/implementation/windows.rs:120-128 | `CoUninitialize` is called only when the count is 1. The count always drops by exactly 1, which needs a positive count. The crate's own COM state still matches the counter |
| Windows.InitializeUninitializeBalanced | src/implementation/windows.rs:25-27 | A successful `initialize` followed by `unitialize` restores the counter and the crate's own COM state. The OS sees either a matched `CoInitialize`/`CoUninitialize` pair or no call |
| Windows.SwappedBytes | src/implementation/windows.rs:79-81 | In every whole 4-byte pixel, bytes 0 and 2 are exchanged and bytes 1 and 3 are kept. A trailing partial pixel is untouched and the length is kept |
| Windows.SwappedTwice | src/implementation/windows.rs:79-81 | Swapping twice gives back the original bytes |
| Windows.SwapChunks | src/implementation/windows.rs:79-81 | The chunk loop keeps the length and moves every byte as the swap prescribes |
| Windows.SwapChunksComputesSwapped | src/implementation/windows.rs:79-81 | The loop's result equals the recursive definition of the swap |
| Windows.ReadIcon | src/implementation/windows.rs:29-90 | An icon exists exactly when the Shell has an image, `GetObjectW` describes it and `GetDIBits` copies it. It is `size` square. Its pixels are the `bmWidth * 4 * bmHeight` bytes written by GDI, swapped |
| Windows.GetFileIconOnce | src/implementation/windows.rs:9-91 | The counter on exit equals the counter on entry. COM goes up and down around the call only when nothing else holds it. A failed `CoInitialize` at count 0 means no icon. Otherwise the icon is exactly what `ReadIcon` reads from the Shell, `size` square |
| Windows.IconIsSwappedBuffer | src/implementation/windows.rs:60-90 | A returned icon has `bmWidth * 4 * bmHeight` bytes, each taken from the position in the GDI buffer the swap prescribes. Swapping it again recovers the buffer |
| Windows.NewAsWritten | src/implementation/windows.rs:132-138 | As written, creation always yields a provider, whatever `initialize` returned. The counter is what `initialize` left |
| Windows.NewAsWrittenUnderflowsOnDrop | src/implementation/windows.rs:132-148 | As written, on a fresh thread where `CoInitialize` fails, a provider exists while the counter is 0, so its `drop` decrements a zero `u32` |
| Windows.New | src/implementation/windows.rs:132-138 | Corrected: a provider exists exactly when `initialize` succeeds, and it then holds one more reference. On failure the counter is unchanged |
| Windows.Drop | src/implementation/windows.rs:145-148 | Releases one reference. `CoUninitialize` is called only for the last one |
| Windows.NewThenDropBalanced | src/implementation/windows.rs:132-148 | With the correction, every created provider can be dropped, and creating then dropping restores the counter and the crate's own COM state |
| Windows.GetFileIcon | src/implementation/windows.rs:140-142 | No cache: every request goes to the one-shot lookup, and the counter is unchanged. While COM is held there are no COM calls. When COM is up, the value is exactly the converted `ReadIcon` answer. When `CoInitialize` fails at count 0, the Shell is not asked and there is no value |
| Windows.RepeatedRequestIsNotCached | src/implementation/windows.rs:140-142 | A repeated request reflects the Shell's current answer, not an earlier one |

## Left out

- Every OS rendering and lookup call. These are NSWorkspace and
  NSGraphicsContext drawing, Shell `GetImage`, GDI `GetObjectW`/`GetDIBits`,
  GTK/gio theme lookup and UTType lookup. Each is an opaque function field
  of `Linux.Gtk`, `MacOs.Cocoa` or `Windows.Shell`, or a `Primitive`
  parameter.
- `src/lib.rs`: an older one-shot lookup that is pure FFI. Its byte swap is
  the same loop as `Windows.SwapChunks`.
- Filesystem metadata (`is_dir`, `is_symlink`, mode bits) is an input
  `Metadata` record. `canonicalize` is an opaque `MacOs.Cocoa` field.
- Thread-local storage, `RefCell` borrow panics and the `defer!` mechanics.
  The COM counter is one value threaded through the calls, and the deferred
  `unitialize` is written out on the single path after a successful
  `initialize`.
- Windows path syntax: `Paths` follows Unix rules (only `/` separates
  components).
- Validation of a zero size or a missing path: none of the modelled files
  does it, and a zero size reaches the primitive unchanged.
- Log messages (`log::error!`).
- `examples/` and `benches/`: GUI, CLI, file saving and benchmarking.
- MacOs.GetPixels: the image size is floating point in `get_pixels` and whole
  numbers here. The drawn bytes are an opaque function of the image (an
  identity and a size) and the target size; earlier drawing into the reused
  bitmap plays no part, since the Copy operation covers the whole bitmap.
  The save/restore of the graphics state is not modelled.
- Linux.IconOf: the pixel buffer length is not tied to width and height.
  GTK pixbufs have their own row stride and channel count.
- Windows.ReadIcon: `bmWidth` and `bmHeight` are taken to be non-negative.
  The `i32` product `bmWidth * 4` is taken not to overflow.
- Windows.Initialize: requires the counter to be below `u32::MAX`. Overflow
  of `count + 1` is not modelled.
- Linux.GetFileIcon: keyed by the corrected `Linux.CacheKey`, so it differs
  from `get_file_icon` as written on plain desktop entries.
  `Linux.GetFileIconAsWritten` carries the as-written behaviour with the
  same contract.
- Windows.Com: records only whether this crate's own `CoInitialize` is
  outstanding. COM initialised on the thread by other code (an apartment
  set up by the application, where `CoInitialize` returns `S_FALSE` or fails
  with a changed mode) is not modelled; only its effect on whether
  `CoInitialize` succeeds is, through `Windows.Shell.coInitializeOk`.
- Windows.Uninitialize: requires a positive counter. The release-build
  wrap-around of `0u32 - 1` is not computed; the zero-counter case is the
  subject of the second finding.
- Provider.Replay: the OS answers through one fixed primitive for the whole
  run. Single calls (`Provider.SameExtensionHits`,
  `Provider.FailureIsRetried`) allow the OS answer to change between calls.
- The per-thread worker variant of the Windows backend and its channel are
  not part of the modelled files.

## Findings

| source | as written | input that shows it | evidently intended | confidence | as-written member | corrected member |
|---|---|---|---|---|---|---|
| src/implementation/linux.rs:72 | The provider compares `extension().to_str()` with `".desktop"`. An extension never contains a dot, so this branch can never be taken | A regular file `firefox.desktop` with mode 0o644: its extension is `desktop`, so it is cached, and every later desktop entry shares its icon | Desktop entries bypass the cache: compare with `"desktop"` | high; not executed | Linux.CacheKeyAsWritten, Linux.GetFileIconAsWritten, Linux.DesktopEntryCachedAsWritten, Linux.DesktopEntryHitAsWritten | Linux.CacheKey, Linux.GetFileIcon, Linux.DesktopEntriesBypass |
| src/implementation/windows.rs:132-138 | `Provider::new` ignores the failure of `com::initialize()` and still returns a provider. Its `drop` (lines 145-148) always calls `unitialize` | On a thread whose counter is 0, `CoInitialize` fails. The provider is created, the counter stays 0, and `drop` evaluates `0u32 - 1` | A provider exists only when it holds a COM reference (`new` returns `None` on failure), so `drop` always finds a positive counter | medium; not executed | Windows.NewAsWritten, Windows.NewAsWrittenUnderflowsOnDrop | Windows.New, Windows.NewThenDropBalanced |

`Linux.GetFileIcon` uses the corrected `Linux.CacheKey`. `Windows.Drop` is
only callable on a counter that the corrected `Windows.New` produces.

=== FILE: base.dfy ===
/** Values shared by every part of the model: the optional-value wrapper,
    fixed-width integer ranges, and the decoded icon the OS primitives return. */
module Base {

  /** Rust's `Option`. */
  datatype Option<+T> = None | Some(value: T)

  /** `Option::map`: applies `f` to a present value. */
  function MapOption<A, B>(o: Option<A>, f: A -> B): (r: Option<B>)
    ensures r.Some? <==> o.Some?
    ensures o.Some? ==> r.value == f(o.value)
  {
    match o
    case None => None
    case Some(a) => Some(f(a))
  }

  type Byte = x: int | 0 <= x < 0x100

  const U16_LIMIT: int := 0x1_0000
  const U32_LIMIT: int := 0x1_0000_0000

  type U16 = x: int | 0 <= x < U16_LIMIT
  type U32 = x: int | 0 <= x < U32_LIMIT
  type I32 = x: int | -0x8000_0000 <= x < 0x8000_0000

  /** Rust's `x as u32` for an `i32`: two's-complement reinterpretation. */
  function I32AsU32(x: I32): (r: U32)
    ensures x >= 0 ==> r == x
    ensures x < 0 ==> r >= 0x8000_0000
    ensures r % U32_LIMIT == x % U32_LIMIT
  {
    if x < 0 then x + U32_LIMIT else x
  }

  /** A path, as the bytes of a Unix `OsStr`. */
  type Path = seq<Byte>

  /** The decoded icon: width, height and RGBA bytes. */
  datatype Icon = Icon(width: U32, height: U32, pixels: seq<Byte>)

  /** What `is_dir`, `is_symlink` and `metadata` report for a path; `mode` is
      absent when `metadata` fails (the path does not exist, say). */
  datatype Metadata = Metadata(isDir: bool, isSymlink: bool, mode: Option<bv32>)

  /** One invocation of a platform icon primitive. */
  datatype Request = Request(path: Path, size: U16)

  /** The platform icon primitive: a one-shot, fallible OS lookup. */
  type Primitive = (Path, U16) -> Option<Icon>
}

=== FILE: linux.dfy ===
/** The Linux backend: the GTK/gio icon primitive and the fixed-size
    provider whose cache is keyed by the extension string alone. */
module Linux {
  import opened Base
  import opened Paths
  import Memo
  import Generic = Provider

  // ---------------------------------------------------------------------
  // The primitive
  // ---------------------------------------------------------------------

  /** A loaded theme image: `width()`, `height()` and `read_pixel_bytes()`. */
  datatype Pixbuf = Pixbuf(width: I32, height: I32, bytes: seq<Byte>)

  /** What GTK and gio answer; each is a black box to the model. */
  datatype Gtk = Gtk(
    initSucceeds: bool,                            // gtk::init
    contentType: Path -> Option<string>,           // query_info and content_type
    themedNames: string -> Option<seq<string>>,    // content_type_get_icon as a ThemedIcon, then names()
    themeAvailable: bool,                          // IconTheme::default
    loadIcon: (string, I32) -> Option<Pixbuf>      // load_icon, with errors folded into None
  )

  /** The search over the themed icon's names: the image of the first name
      whose load succeeds. */
  function FirstLoaded(names: seq<string>, size: I32, load: (string, I32) -> Option<Pixbuf>): (r: Option<Pixbuf>)
    ensures r.None? <==> forall i :: 0 <= i < |names| ==> load(names[i], size).None?
    ensures r.Some? ==> exists i :: 0 <= i < |names| && r == load(names[i], size)
                                 && (forall j :: 0 <= j < i ==> load(names[j], size).None?)
    decreases |names|
  {
    if |names| == 0 then None
    else if load(names[0], size).Some? then load(names[0], size)
    else
      var r := FirstLoaded(names[1..], size, load);
      assert forall i :: 1 <= i < |names| ==> names[i] == names[1..][i - 1];
      r
  }

  /** The icon built from a loaded image; `as u32` on GTK's `i32` sizes. */
  function IconOf(pixbuf: Pixbuf): (icon: Icon)
    ensures pixbuf.width >= 0 ==> icon.width == pixbuf.width
    ensures pixbuf.height >= 0 ==> icon.height == pixbuf.height
    ensures icon.pixels == pixbuf.bytes
  {
    Icon(I32AsU32(pixbuf.width), I32AsU32(pixbuf.height), pixbuf.bytes)
  }

  /** GTK's process-wide initialisation flag after a call, and the icon. */
  datatype Lookup = Lookup(gtkInitialized: bool, icon: Option<Icon>)

  /** `get_file_icon(path, size)`. GTK is initialised on first use; once
      initialised it stays so, and a failed initialisation is retried by the
      next call. */
  function GetFileIconOnce(gtkInitialized: bool, gtk: Gtk, path: Path, size: U16): (r: Lookup)
    ensures r.gtkInitialized <==> gtkInitialized || gtk.initSucceeds
    ensures !r.gtkInitialized ==> r.icon.None?
    ensures r.icon.Some? ==>
      && gtk.contentType(path).Some?
      && gtk.themedNames(gtk.contentType(path).value).Some?
      && gtk.themeAvailable
      && var names := gtk.themedNames(gtk.contentType(path).value).value;
         exists i :: 0 <= i < |names| && gtk.loadIcon(names[i], size).Some?
           && r.icon.value == IconOf(gtk.loadIcon(names[i], size).value)
           && (forall j :: 0 <= j < i ==> gtk.loadIcon(names[j], size).None?)
    ensures r.gtkInitialized && gtk.contentType(path).Some? && gtk.themeAvailable
      && gtk.themedNames(gtk.contentType(path).value).Some?
      && (var names := gtk.themedNames(gtk.contentType(path).value).value;
          exists i :: 0 <= i < |names| && gtk.loadIcon(names[i], size).Some?)
      ==> r.icon.Some?
  {
    if !gtkInitialized && !gtk.initSucceeds then Lookup(false, None)
    else
      var icon :=
        match gtk.contentType(path)
        case None => None
        case Some(contentType) =>
          match gtk.themedNames(contentType)
          case None => None
          case Some(names) =>
            if !gtk.themeAvailable then None
            else MapOption(FirstLoaded(names, size, gtk.loadIcon), IconOf);
      Lookup(true, icon)
  }

  // ---------------------------------------------------------------------
  // The provider
  // ---------------------------------------------------------------------

  /** The provider: one icon size for its lifetime, so the extension alone is the key. */
  datatype Provider<T> = Provider(iconSize: U16, converter: Icon -> T, iconsCache: map<seq<Byte>, T>)

  datatype Answer<T> = Answer(provider: Provider<T>, value: Option<T>, calls: seq<Request>)

  /** `Provider::new`: never fails. */
  function New<T>(iconSize: U16, converter: Icon -> T): (r: Option<Provider<T>>)
    ensures r.Some?
    ensures r.value.iconsCache == map[]
    ensures r.value.iconSize == iconSize && r.value.converter == converter
  {
    Some(Provider(iconSize, converter, map[]))
  }

  /** Any of the three `x` permission bits (`0o111`). */
  const ExecutableBits: bv32 := 0x49

  /** Directories, symbolic links and files with an execute bit for owner,
      group or others may carry an icon of their own, so they are never
      cached. A file whose metadata cannot be read has no mode to test. */
  predicate HasOwnIcon(meta: Metadata): (b: bool)
    ensures b <==> (meta.isDir || meta.isSymlink
                    || (meta.mode.Some? && (meta.mode.value & 0x40 != 0 || meta.mode.value & 0x8 != 0 || meta.mode.value & 0x1 != 0)))
  {
    meta.isDir || meta.isSymlink || (meta.mode.Some? && meta.mode.value & ExecutableBits != 0)
  }

  /** The extension of desktop entries, which name their own icon. */
  const Desktop: seq<Byte> := [0x64, 0x65, 0x73, 0x6B, 0x74, 0x6F, 0x70]

  /** The literal `get_file_icon` compares the extension with. */
  const DotDesktop: seq<Byte> := [Dot] + Desktop

  /** `firefox`, the stem of a typical desktop entry's file name. */
  const Firefox: seq<Byte> := [0x66, 0x69, 0x72, 0x65, 0x66, 0x6F, 0x78]

  /** The cache key as `get_file_icon` computes it: `None` means "call through". */
  function CacheKeyAsWritten(meta: Metadata, path: Path): (k: Option<seq<Byte>>)
    ensures k.Some? <==>
      !HasOwnIcon(meta) && Extension(path).Some? && ValidUtf8(Extension(path).value)
      && Extension(path).value != DotDesktop
    ensures k.Some? ==> k.value == Extension(path).value
  {
    if HasOwnIcon(meta) then None
    else match Extension(path)
      case None => None
      case Some(e) =>
        match ToStr(e)
        case None => None
        case Some(s) => if s == DotDesktop then None else Some(s)
  }

  /** The cache key with desktop entries exempted, as the comparison
      evidently intends: `None` means "call through". */
  function CacheKey(meta: Metadata, path: Path): (k: Option<seq<Byte>>)
    ensures k.Some? <==>
      !HasOwnIcon(meta) && Extension(path).Some? && ValidUtf8(Extension(path).value)
      && Extension(path).value != Desktop
    ensures k.Some? ==> k.value == Extension(path).value
  {
    if HasOwnIcon(meta) then None
    else match Extension(path)
      case None => None
      case Some(e) =>
        match ToStr(e)
        case None => None
        case Some(s) => if s == Desktop then None else Some(s)
  }

  /** No path has the extension `.desktop`: an extension never holds a dot,
      so the exemption in `get_file_icon` can never apply. */
  lemma DotDesktopNeverMatches(path: Path)
    ensures Extension(path) != Some(DotDesktop)
  {
    assert DotDesktop[0] == Dot;
  }

  /** As written, a plain, non-executable desktop entry is cached under
      `desktop` like any document, contrary to the exemption's intent. */
  lemma DesktopEntryCachedAsWritten()
    ensures CacheKeyAsWritten(Metadata(false, false, Some(0x1A4)), Firefox + [Dot] + Desktop) == Some(Desktop)
  {
    var path := Firefox + [Dot] + Desktop;
    assert IsNormal(path) by {
      assert path != [Dot] && path != [Dot, Dot];
      forall i | 0 <= i < |path| ensures path[i] != Slash { }
    }
    ExtensionOfName(path, Firefox, Desktop);
    AsciiIsUtf8(Desktop);
    assert (0x1A4 as bv32) & ExecutableBits == 0;
  }

  /** With the correction, exactly the desktop entries stop being cached:
      every other request gets the key `get_file_icon` computes. */
  lemma DesktopEntriesBypass(meta: Metadata, path: Path)
    ensures Extension(path) == Some(Desktop) ==> CacheKey(meta, path).None?
    ensures Extension(path) != Some(Desktop) ==> CacheKey(meta, path) == CacheKeyAsWritten(meta, path)
  {
    DotDesktopNeverMatches(path);
  }

  /** An extension holding a byte that never occurs in UTF-8 (0xC0, 0xC1,
      or 0xF5 and above) has no `str` form and is never cached. */
  lemma NonUtf8ExtensionBypasses(meta: Metadata, path: Path, k: nat)
    requires Extension(path).Some? && k < |Extension(path).value|
    requires var b := Extension(path).value[k]; b == 0xC0 || b == 0xC1 || b >= 0xF5
    ensures !ValidUtf8(Extension(path).value)
    ensures CacheKey(meta, path).None? && CacheKeyAsWritten(meta, path).None?
  {
    ForbiddenByteIsNotUtf8(Extension(path).value, k);
  }

  /** `Provider::get_file_icon` as written: keyed by `CacheKeyAsWritten`,
      so a plain desktop entry can be served from the cache. */
  function GetFileIconAsWritten<T>(p: Provider<T>, meta: Metadata, os: Primitive, path: Path): (r: Answer<T>)
    ensures r.provider.iconSize == p.iconSize && r.provider.converter == p.converter
    // the primitive is asked at the provider's size, and only on a bypass or a miss
    ensures r.calls == [] || r.calls == [Request(path, p.iconSize)]
    ensures r.calls == [] <==> CacheKeyAsWritten(meta, path).Some? && CacheKeyAsWritten(meta, path).value in p.iconsCache
    ensures r.calls == [] ==> r.value == Some(p.iconsCache[CacheKeyAsWritten(meta, path).value])
    ensures r.calls != [] ==> r.value == MapOption(os(path, p.iconSize), p.converter)
    // bypassed requests and failures leave the cache as it was
    ensures CacheKeyAsWritten(meta, path).None? || r.value.None? ==> r.provider.iconsCache == p.iconsCache
    // nothing is evicted or replaced; at most the extension's entry is added
    ensures forall e :: e in p.iconsCache ==> e in r.provider.iconsCache && r.provider.iconsCache[e] == p.iconsCache[e]
    ensures forall e :: e in r.provider.iconsCache ==> e in p.iconsCache || CacheKeyAsWritten(meta, path) == Some(e)
    // a successful lookup is remembered under the extension
    ensures CacheKeyAsWritten(meta, path).Some? && r.value.Some? ==>
      CacheKeyAsWritten(meta, path).value in r.provider.iconsCache && r.provider.iconsCache[CacheKeyAsWritten(meta, path).value] == r.value.value
  {
    Serve(p, CacheKeyAsWritten(meta, path), os, path)
  }

  /** `Provider::get_file_icon` with desktop entries exempted as intended. */
  function GetFileIcon<T>(p: Provider<T>, meta: Metadata, os: Primitive, path: Path): (r: Answer<T>)
    ensures r.provider.iconSize == p.iconSize && r.provider.converter == p.converter
    // the primitive is asked at the provider's size, and only on a bypass or a miss
    ensures r.calls == [] || r.calls == [Request(path, p.iconSize)]
    ensures r.calls == [] <==> CacheKey(meta, path).Some? && CacheKey(meta, path).value in p.iconsCache
    ensures r.calls == [] ==> r.value == Some(p.iconsCache[CacheKey(meta, path).value])
    ensures r.calls != [] ==> r.value == MapOption(os(path, p.iconSize), p.converter)
    // bypassed requests and failures leave the cache as it was
    ensures CacheKey(meta, path).None? || r.value.None? ==> r.provider.iconsCache == p.iconsCache
    // nothing is evicted or replaced; at most the extension's entry is added
    ensures forall e :: e in p.iconsCache ==> e in r.provider.iconsCache && r.provider.iconsCache[e] == p.iconsCache[e]
    ensures forall e :: e in r.provider.iconsCache ==> e in p.iconsCache || CacheKey(meta, path) == Some(e)
    // a successful lookup is remembered under the extension
    ensures CacheKey(meta, path).Some? && r.value.Some? ==>
      CacheKey(meta, path).value in r.provider.iconsCache && r.provider.iconsCache[CacheKey(meta, path).value] == r.value.value
  {
    Serve(p, CacheKey(meta, path), os, path)
  }

  /** The lookup both versions share once the key is decided: the entry's
      value on a hit, otherwise the converted primitive answer, remembered
      on success. */
  function Serve<T>(p: Provider<T>, key: Option<seq<Byte>>, os: Primitive, path: Path): Answer<T> {
    var l := Memo.GetOrFetch(p.iconsCache, key, MapOption(os(path, p.iconSize), p.converter));
    Answer(p.(iconsCache := l.cache), l.value, if l.called then [Request(path, p.iconSize)] else [])
  }

  /** The two versions part on a plain desktop entry once `desktop` is
      cached: as written it is a hit with no lookup; corrected, the
      primitive is asked for the entry's own icon. */
  lemma DesktopEntryHitAsWritten<T>(p: Provider<T>, os: Primitive)
    requires Desktop in p.iconsCache
    ensures var meta, path := Metadata(false, false, Some(0x1A4)), Firefox + [Dot] + Desktop;
      && GetFileIconAsWritten(p, meta, os, path).calls == []
      && GetFileIconAsWritten(p, meta, os, path).value == Some(p.iconsCache[Desktop])
      && GetFileIcon(p, meta, os, path).calls == [Request(path, p.iconSize)]
  {
    var meta, path := Metadata(false, false, Some(0x1A4)), Firefox + [Dot] + Desktop;
    DesktopEntryCachedAsWritten();
    assert Extension(path) == Some(Desktop);
    DesktopEntriesBypass(meta, path);
  }

  /** The Linux cache seen as a generic provider's cache at the fixed size. */
  function AsGeneric<T>(p: Provider<T>): (g: Generic.FileIconProvider<T>)
    ensures g.convert == p.converter
    ensures forall e :: e in p.iconsCache <==> Generic.Key(p.iconSize, e) in g.cache
    ensures forall k :: k in g.cache ==> k.size == p.iconSize && g.cache[k] == p.iconsCache[k.extension]
  {
    Generic.FileIconProvider(map e | e in p.iconsCache :: Generic.Key(p.iconSize, e) := p.iconsCache[e], p.converter)
  }

  /** On a cacheable request, hit, miss and failure behave exactly as in the
      generic provider asked at the fixed size. */
  lemma BehavesAsGenericProvider<T>(p: Provider<T>, meta: Metadata, os: Primitive, path: Path)
    requires CacheKey(meta, path).Some?
    ensures GetFileIcon(p, meta, os, path).value == Generic.GetIcon(AsGeneric(p), os, path, p.iconSize).value
    ensures GetFileIcon(p, meta, os, path).calls == Generic.GetIcon(AsGeneric(p), os, path, p.iconSize).calls
    ensures AsGeneric(GetFileIcon(p, meta, os, path).provider) == Generic.GetIcon(AsGeneric(p), os, path, p.iconSize).provider
  {
    var r := GetFileIcon(p, meta, os, path);
    var g := Generic.GetIcon(AsGeneric(p), os, path, p.iconSize);
    var e := CacheKey(meta, path).value;
    assert Generic.KeyOf(path, p.iconSize) == Some(Generic.Key(p.iconSize, e));
    if r.calls != [] && r.value.Some? {
      AsGenericInsert(p, e, r.value.value);
    }
  }

  /** Adding an extension's entry adds the matching (size, extension) entry. */
  lemma AsGenericInsert<T>(p: Provider<T>, e: seq<Byte>, v: T)
    ensures AsGeneric(p.(iconsCache := p.iconsCache[e := v])).cache
         == AsGeneric(p).cache[Generic.Key(p.iconSize, e) := v]
  {
    var a := AsGeneric(p.(iconsCache := p.iconsCache[e := v])).cache;
    var b := AsGeneric(p).cache[Generic.Key(p.iconSize, e) := v];
    assert a.Keys == b.Keys by {
      forall k | k in b ensures k in a {
        if k != Generic.Key(p.iconSize, e) {
          assert k in AsGeneric(p).cache;
        }
      }
    }
  }

  /** A bypassed request (directory, symlink, executable, desktop entry, no
      or non-UTF-8 extension) calls the primitive every time and never
      touches the cache. */
  lemma BypassAlwaysCallsThrough<T>(p: Provider<T>, meta: Metadata, os: Primitive, later: Primitive, path: Path)
    requires CacheKey(meta, path).None?
    ensures var first := GetFileIcon(p, meta, os, path);
      && first.provider == p
      && GetFileIcon(first.provider, meta, later, path).calls == [Request(path, p.iconSize)]
  {
  }
}

=== FILE: macos.dfy ===
/** The macOS backend: the NSWorkspace primitive, which renders into a
    size-by-size RGBA bitmap, and the provider that reuses one bitmap and
    graphics context and keys its cache by uniform type identifier. */
module MacOs {
  import opened Base
  import opened Paths
  import Memo

  /** An `NSImage` as the backend sees it: which image it is, and its size
      in whole points. Two images of the same size may draw differently. */
  datatype Image = Image(id: nat, width: int, height: int)

  /** An `NSBitmapImageRep`: pixels wide and high, and bytes per row. */
  datatype Bitmap = Bitmap(pixelsWide: nat, pixelsHigh: nat, bytesPerRow: nat)

  /** `bytesPerPlane` of a non-planar bitmap: every row of every pixel. */
  function BytesPerPlane(b: Bitmap): nat {
    b.bytesPerRow * b.pixelsHigh
  }

  /** What AppKit and the filesystem answer; each is a black box to the model. */
  datatype Cocoa = Cocoa(
    bitmapCreated: U16 -> bool,                 // NSBitmapImageRep init returns an object
    contextCreated: Bitmap -> bool,             // graphicsContextWithBitmapImageRep returns one
    canonicalize: Path -> Option<Path>,         // Path::canonicalize
    iconForFile: seq<Byte> -> Image,            // NSWorkspace iconForFile, which always answers
    draw: (Image, nat, nat) -> Byte,            // byte i of the bitmap once the image is drawn at a size
    utType: seq<Byte> -> Option<seq<Byte>>      // typeWithFilenameExtension, then identifier
  )

  /** `create_bitmap_representation`: size by size pixels, four 8-bit
      samples each, `size * 4` bytes per row. */
  function CreateBitmap(cocoa: Cocoa, size: U16): (r: Option<Bitmap>)
    ensures r.Some? <==> cocoa.bitmapCreated(size)
    ensures r.Some? ==> BytesPerPlane(r.value) == size * size * 4
  {
    if cocoa.bitmapCreated(size) then Some(Bitmap(size, size, size * 4)) else None
  }

  /** `path_to_nsstring`: the canonical path, when it exists and is UTF-8. */
  function PathToNsString(cocoa: Cocoa, path: Path): (r: Option<seq<Byte>>)
    ensures r.Some? <==> cocoa.canonicalize(path).Some? && ValidUtf8(cocoa.canonicalize(path).value)
    ensures r.Some? ==> r.value == cocoa.canonicalize(path).value
  {
    match cocoa.canonicalize(path)
    case None => None
    case Some(c) => ToStr(c)
  }

  /** `get_pixels`: refuses an image smaller than one point either way;
      otherwise draws it scaled to `size` and copies the whole plane. */
  function GetPixels(cocoa: Cocoa, image: Image, bitmap: Bitmap, size: nat): (r: Option<seq<Byte>>)
    ensures r.None? <==> image.width < 1 || image.height < 1
    ensures r.Some? ==> |r.value| == BytesPerPlane(bitmap)
    ensures r.Some? ==> forall i :: 0 <= i < |r.value| ==> r.value[i] == cocoa.draw(image, size, i)
  {
    if image.width < 1 || image.height < 1 then None
    else Some(Plane(cocoa, image, bitmap, size))
  }

  /** The whole bitmap plane once `image` is drawn into it at `size`. */
  function Plane(cocoa: Cocoa, image: Image, bitmap: Bitmap, size: nat): seq<Byte> {
    seq<Byte>(BytesPerPlane(bitmap), (i: int) requires 0 <= i => cocoa.draw(image, size, i))
  }

  /** The image NSWorkspace hands back for a path that resolves. */
  function IconImage(cocoa: Cocoa, path: Path): Image
    requires PathToNsString(cocoa, path).Some?
  {
    cocoa.iconForFile(PathToNsString(cocoa, path).value)
  }

  /** `get_file_icon(path, size)`: a fresh bitmap and context per call. */
  function GetFileIconOnce(cocoa: Cocoa, path: Path, size: U16): (r: Option<Icon>)
    ensures r.Some? ==> r.value.width == size && r.value.height == size
    ensures r.Some? ==> |r.value.pixels| == size * size * 4
    // an icon exists exactly when the path resolves, the bitmap and its
    // context can be made, and the image is at least one point either way
    ensures r.Some? <==>
      && PathToNsString(cocoa, path).Some?
      && CreateBitmap(cocoa, size).Some? && cocoa.contextCreated(CreateBitmap(cocoa, size).value)
      && IconImage(cocoa, path).width >= 1 && IconImage(cocoa, path).height >= 1
    ensures r.Some? ==> forall i :: 0 <= i < |r.value.pixels| ==>
      r.value.pixels[i] == cocoa.draw(IconImage(cocoa, path), size, i)
  {
    match PathToNsString(cocoa, path)
    case None => None
    case Some(filePath) =>
      var image := cocoa.iconForFile(filePath);
      match CreateBitmap(cocoa, size)
      case None => None
      case Some(bitmap) =>
        if !cocoa.contextCreated(bitmap) then None
        else MapOption(GetPixels(cocoa, image, bitmap, size), (pixels: seq<Byte>) => Icon(size, size, pixels))
  }

  /** The provider: the reused bitmap, its graphics context if one could be
      made, the fixed size, and the cache keyed by type identifier. */
  datatype Provider<T> = Provider(
    bitmap: Bitmap,
    hasContext: bool,
    iconSize: U16,
    cache: map<seq<Byte>, T>,
    converter: Icon -> T
  )

  /** `Provider::new`: fails only when the bitmap cannot be created; a
      missing context is not reported here. */
  function New<T>(cocoa: Cocoa, iconSize: U16, converter: Icon -> T): (r: Option<Provider<T>>)
    ensures r.None? <==> !cocoa.bitmapCreated(iconSize)
    ensures r.Some? ==> r.value.cache == map[] && r.value.iconSize == iconSize && r.value.converter == converter
    ensures r.Some? ==> BytesPerPlane(r.value.bitmap) == iconSize * iconSize * 4
    ensures r.Some? ==> r.value.hasContext == cocoa.contextCreated(r.value.bitmap)
  {
    match CreateBitmap(cocoa, iconSize)
    case None => None
    case Some(bitmap) => Some(Provider(bitmap, cocoa.contextCreated(bitmap), iconSize, map[], converter))
  }

  /** `get_uttype_identifier`: the cache key. Directories, paths without a
      UTF-8 extension and extensions with no known type have none. */
  function TypeIdentifier(meta: Metadata, cocoa: Cocoa, path: Path): (r: Option<seq<Byte>>)
    ensures meta.isDir ==> r.None?
    ensures Extension(path).None? || !ValidUtf8(Extension(path).value) ==> r.None?
    ensures r.Some? ==> r == cocoa.utType(Extension(path).value)
    ensures !meta.isDir && Extension(path).Some? && ValidUtf8(Extension(path).value) ==> r == cocoa.utType(Extension(path).value)
  {
    if meta.isDir then None
    else match Extension(path)
      case None => None
      case Some(e) =>
        match ToStr(e)
        case None => None
        case Some(s) => cocoa.utType(s)
  }

  /** A call either returns (possibly nothing) or panics on `unwrap`. */
  datatype Reply<T> = Panicked | Returned(value: Option<T>)

  /** The icon `get_icon` renders before conversion: it needs the graphics
      context, then the path, then a drawable image. */
  function RenderIcon<T>(p: Provider<T>, cocoa: Cocoa, path: Path): (r: Reply<Icon>)
    ensures r.Panicked? <==> !p.hasContext
    ensures r.Returned? && r.value.Some? ==> r.value.value.width == p.iconSize && r.value.value.height == p.iconSize
    ensures r.Returned? && r.value.Some? ==> |r.value.value.pixels| == BytesPerPlane(p.bitmap)
    ensures r.Returned? && PathToNsString(cocoa, path).None? ==> r.value.None?
    // with a context and a resolvable path, the guard on the image decides
    ensures p.hasContext && PathToNsString(cocoa, path).Some? ==>
      r.Returned? && (r.value.Some? <==> IconImage(cocoa, path).width >= 1 && IconImage(cocoa, path).height >= 1)
    ensures r.Returned? && r.value.Some? ==>
      && PathToNsString(cocoa, path).Some?
      && forall i :: 0 <= i < |r.value.value.pixels| ==>
           r.value.value.pixels[i] == cocoa.draw(IconImage(cocoa, path), p.iconSize, i)
  {
    if !p.hasContext then Panicked
    else match PathToNsString(cocoa, path)
      case None => Returned(None)
      case Some(filePath) =>
        var image := cocoa.iconForFile(filePath);
        Returned(MapOption(GetPixels(cocoa, image, p.bitmap, p.iconSize), (pixels: seq<Byte>) => Icon(p.iconSize, p.iconSize, pixels)))
  }

  /** `Provider::get_icon`: panics without a graphics context; otherwise the
      provider's bitmap plane with the file's image drawn into it, as an
      `icon_size` square icon, converted. */
  function GetIcon<T>(p: Provider<T>, cocoa: Cocoa, path: Path): (r: Reply<T>)
    ensures r.Panicked? <==> !p.hasContext
    ensures r.Returned? ==>
      (r.value.Some? <==>
        && PathToNsString(cocoa, path).Some?
        && IconImage(cocoa, path).width >= 1 && IconImage(cocoa, path).height >= 1)
    ensures r.Returned? && r.value.Some? ==>
      && PathToNsString(cocoa, path).Some?
      && r.value.value == p.converter(Icon(p.iconSize, p.iconSize, Plane(cocoa, IconImage(cocoa, path), p.bitmap, p.iconSize)))
  {
    match RenderIcon(p, cocoa, path)
    case Panicked => Panicked
    case Returned(icon) => Returned(MapOption(icon, p.converter))
  }

  /** The provider after a call, the reply, and the `get_icon` calls made. */
  datatype Answer<T> = Answer(provider: Provider<T>, reply: Reply<T>, calls: seq<Path>)

  /** `Provider::get_file_icon`. */
  function GetFileIcon<T>(p: Provider<T>, meta: Metadata, cocoa: Cocoa, path: Path): (r: Answer<T>)
    ensures r.provider.bitmap == p.bitmap && r.provider.hasContext == p.hasContext
    ensures r.provider.iconSize == p.iconSize && r.provider.converter == p.converter
    ensures r.calls == [] || r.calls == [path]
    // a hit needs neither the context nor the OS
    ensures r.calls == [] <==> TypeIdentifier(meta, cocoa, path).Some? && TypeIdentifier(meta, cocoa, path).value in p.cache
    ensures r.calls == [] ==> r.reply == Returned(Some(p.cache[TypeIdentifier(meta, cocoa, path).value]))
    ensures r.calls != [] ==> r.reply == GetIcon(p, cocoa, path)
    // only a successful `get_icon` is inserted, under the identifier
    ensures !(r.reply.Returned? && r.reply.value.Some?) || TypeIdentifier(meta, cocoa, path).None? ==> r.provider.cache == p.cache
    ensures forall k :: k in p.cache ==> k in r.provider.cache && r.provider.cache[k] == p.cache[k]
    ensures forall k :: k in r.provider.cache ==> k in p.cache || TypeIdentifier(meta, cocoa, path) == Some(k)
    // a successful `get_icon` is remembered under the identifier
    ensures TypeIdentifier(meta, cocoa, path).Some? && r.reply.Returned? && r.reply.value.Some? ==>
      && TypeIdentifier(meta, cocoa, path).value in r.provider.cache
      && r.provider.cache[TypeIdentifier(meta, cocoa, path).value] == r.reply.value.value
  {
    var key := TypeIdentifier(meta, cocoa, path);
    var fetched := GetIcon(p, cocoa, path);
    var l := Memo.GetOrFetch(p.cache, key, if fetched.Returned? then fetched.value else None);
    if l.called && fetched.Panicked? then Answer(p, Panicked, [path])
    else Answer(p.(cache := l.cache), Returned(l.value), if l.called then [path] else [])
  }

  /** Two files whose extensions name the same type (`jpg`, `jpeg`) share one
      entry: after the first succeeds, the second is a hit. */
  lemma SameTypeSharesEntry<T>(p: Provider<T>, cocoa: Cocoa, later: Cocoa, metaA: Metadata, metaB: Metadata, a: Path, b: Path)
    requires TypeIdentifier(metaA, cocoa, a).Some?
    requires TypeIdentifier(metaB, later, b) == TypeIdentifier(metaA, cocoa, a)
    requires GetFileIcon(p, metaA, cocoa, a).reply.Returned? && GetFileIcon(p, metaA, cocoa, a).reply.value.Some?
    ensures GetFileIcon(GetFileIcon(p, metaA, cocoa, a).provider, metaB, later, b).calls == []
    ensures GetFileIcon(GetFileIcon(p, metaA, cocoa, a).provider, metaB, later, b).reply == GetFileIcon(p, metaA, cocoa, a).reply
  {
  }

  /** A provider built without a graphics context panics on every call that
      reaches `get_icon`, and so never caches anything. */
  lemma NoContextNeverCaches<T>(p: Provider<T>, meta: Metadata, cocoa: Cocoa, path: Path)
    requires !p.hasContext
    ensures GetFileIcon(p, meta, cocoa, path).provider.cache == p.cache
    ensures GetFileIcon(p, meta, cocoa, path).reply.Panicked? <==> GetFileIcon(p, meta, cocoa, path).calls != []
  {
  }

  /** A successful `get_icon` converts an icon of the provider's size whose
      pixels fill the whole reused bitmap: `size * size * 4` bytes. */
  lemma RenderedIconFillsBitmap<T>(cocoa: Cocoa, iconSize: U16, converter: Icon -> T, path: Path)
    requires New(cocoa, iconSize, converter).Some?
    ensures var p := New(cocoa, iconSize, converter).value;
      var r := RenderIcon(p, cocoa, path);
      r.Returned? && r.value.Some? ==>
        r.value.value.width == iconSize && r.value.value.height == iconSize
        && |r.value.value.pixels| == iconSize * iconSize * 4
  {
  }
}

=== FILE: memo.dfy ===
/** The get-or-fetch step every caching provider performs on one ordered map
    entry (`BTreeMap::entry`): a hit clones the stored value without calling
    the primitive; a miss calls it and inserts only a successful result; a
    request with no key always calls through and leaves the map alone. */
module Memo {
  import opened Base

  /** The map after one lookup, the value handed back, and whether the
      primitive was invoked. */
  datatype Lookup<K, T> = Lookup(cache: map<K, T>, value: Option<T>, called: bool)

  /** One lookup. `key` is `None` when the request is not cacheable; `fetched`
      is what calling the primitive (and converting its icon) would yield. */
  function GetOrFetch<K, T>(cache: map<K, T>, key: Option<K>, fetched: Option<T>): (r: Lookup<K, T>)
    // the primitive runs exactly when there is no stored value to return
    ensures r.called <==> (key.None? || key.value !in cache)
    ensures r.called ==> r.value == fetched
    ensures !r.called ==> r.value == Some(cache[key.value])
    // failures and uncacheable requests leave the cache as it was
    ensures r.value.None? || key.None? ==> r.cache == cache
    // nothing is evicted or overwritten, and only the requested key can appear
    ensures forall k :: k in cache ==> k in r.cache && r.cache[k] == cache[k]
    ensures forall k :: k in r.cache ==> k in cache || key == Some(k)
    // after a successful cacheable lookup the key holds the returned value
    ensures key.Some? && r.value.Some? ==> key.value in r.cache && r.cache[key.value] == r.value.value
  {
    match key
    case None => Lookup(cache, fetched, true)
    case Some(k) =>
      if k in cache then Lookup(cache, Some(cache[k]), false)
      else match fetched
        case None => Lookup(cache, None, true)
        case Some(v) => Lookup(cache[k := v], Some(v), true)
  }

  /** Failures are never cached: a failed lookup followed by the same lookup
      calls the primitive again. */
  lemma FailureIsRetried<K, T>(cache: map<K, T>, key: Option<K>, fetched: Option<T>, again: Option<T>)
    requires GetOrFetch(cache, key, fetched).value.None?
    ensures GetOrFetch(GetOrFetch(cache, key, fetched).cache, key, again).called
    ensures GetOrFetch(GetOrFetch(cache, key, fetched).cache, key, again).value == again
  {
  }

  /** Once a cacheable lookup has succeeded, a second lookup of the same key
      does not call the primitive, whatever it would now yield, and returns
      the same value. */
  lemma SuccessIsRemembered<K, T>(cache: map<K, T>, k: K, fetched: Option<T>, later: Option<T>)
    requires GetOrFetch(cache, Some(k), fetched).value.Some?
    ensures !GetOrFetch(GetOrFetch(cache, Some(k), fetched).cache, Some(k), later).called
    ensures GetOrFetch(GetOrFetch(cache, Some(k), fetched).cache, Some(k), later).value
         == GetOrFetch(cache, Some(k), fetched).value
  {
  }
}

=== FILE: paths.dfy ===
/** The Unix path rules the providers rely on: `Path::file_name`,
    `Path::extension` and `OsStr::to_str` of the Rust standard library. */
module Paths {
  import opened Base

  const Slash: Byte := 0x2F
  const Dot: Byte := 0x2E

  /** Position of the last occurrence of `b` in `s`. */
  function LastIndexOf(s: seq<Byte>, b: Byte): (r: Option<nat>)
    ensures r.Some? ==> r.value < |s| && s[r.value] == b
    ensures r.Some? ==> forall j :: r.value < j < |s| ==> s[j] != b
    ensures r.None? ==> forall j :: 0 <= j < |s| ==> s[j] != b
    decreases |s|
  {
    if |s| == 0 then None
    else if s[|s| - 1] == b then Some(|s| - 1)
    else LastIndexOf(s[..|s| - 1], b)
  }

  /** A `Component::Normal`: non-empty, no separator, neither `.` nor `..`. */
  predicate IsNormal(c: seq<Byte>) {
    |c| > 0 && Slash !in c && c != [Dot] && c != [Dot, Dot]
  }

  /** `Path::file_name`: the last component when it is a normal one.
      Empty components (repeated or trailing separators) and `.` components
      are skipped; a path ending in `..`, the root and the empty path have none. */
  function FileName(path: Path): (r: Option<seq<Byte>>)
    ensures r.Some? ==> IsNormal(r.value)
    ensures IsNormal(path) ==> r == Some(path)
    decreases |path|
  {
    match LastIndexOf(path, Slash)
    case None => if IsNormal(path) then Some(path) else None
    case Some(i) =>
      var last := path[i + 1..];
      if last == [] || last == [Dot] then FileName(path[..i])
      else if last == [Dot, Dot] then None
      else Some(last)
  }

  /** The file name of a path is its last component: a normal name joined
      to any directory by a separator is that directory's child's name. */
  lemma FileNameOfChild(dir: Path, name: seq<Byte>)
    requires IsNormal(name)
    ensures FileName(dir + [Slash] + name) == Some(name)
  {
    var path := dir + [Slash] + name;
    assert path[|dir|] == Slash;
    forall j | |dir| < j < |path| ensures path[j] != Slash {
      assert path[j] == name[j - |dir| - 1];
    }
    assert path[|dir| + 1..] == name;
  }

  /** A path ending in a `..` component has no file name. */
  lemma FileNameOfParentDir(dir: Path)
    ensures FileName(dir + [Slash, Dot, Dot]) == None
  {
    var path := dir + [Slash, Dot, Dot];
    assert path[|dir|] == Slash && path[|dir| + 1] == Dot && path[|dir| + 2] == Dot;
    assert LastIndexOf(path, Slash) == Some(|dir|);
    assert path[|dir| + 1..] == [Dot, Dot];
  }

  /** A trailing separator is skipped: `a/b/` names `b`, as `a/b` does. */
  lemma FileNameSkipsTrailingSlash(path: Path)
    ensures FileName(path + [Slash]) == FileName(path)
  {
    var p := path + [Slash];
    assert LastIndexOf(p, Slash) == Some(|path|);
    assert p[|path| + 1..] == [];
    assert p[..|path|] == path;
  }

  /** A trailing `.` component is skipped: `a/b/.` names `b`, as `a/b` does. */
  lemma FileNameSkipsTrailingDot(path: Path)
    ensures FileName(path + [Slash, Dot]) == FileName(path)
  {
    var p := path + [Slash, Dot];
    assert p[|path|] == Slash && p[|path| + 1] == Dot;
    assert LastIndexOf(p, Slash) == Some(|path|);
    assert p[|path| + 1..] == [Dot];
    assert p[..|path|] == path;
  }

  /** `Path::extension`: the bytes after the last dot of the file name, unless
      that dot is the name's first byte (`.bashrc` has no extension). The
      extension may be empty (`a.`). */
  function Extension(path: Path): (r: Option<seq<Byte>>)
    ensures r.Some? ==> Dot !in r.value
    ensures r.Some? ==> FileName(path).Some?
    ensures r.Some? ==>
      var n := FileName(path).value;
      |r.value| + 1 < |n| && n[|n| - |r.value| - 1] == Dot && n[|n| - |r.value|..] == r.value
  {
    match FileName(path)
    case None => None
    case Some(name) =>
      match LastIndexOf(name, Dot)
      case None => None
      case Some(i) => if i == 0 then None else Some(name[i + 1..])
  }

  /** A path whose file name has a dot after its first byte has an extension:
      exactly the bytes after the last dot. */
  lemma ExtensionOfName(path: Path, stem: seq<Byte>, ext: seq<Byte>)
    requires FileName(path) == Some(stem + [Dot] + ext)
    requires |stem| > 0 && Dot !in ext
    ensures Extension(path) == Some(ext)
  {
    var name := stem + [Dot] + ext;
    assert name[|stem|] == Dot;
    forall j | |stem| < j < |name|
      ensures name[j] != Dot
    {
      assert name[j] == ext[j - |stem| - 1];
    }
    assert name[|stem| + 1..] == ext;
  }

  /** The well-formed UTF-8 sequence at the head of `s` (Table 3-7 of the
      Unicode Standard): its length, or 0 when the head is ill-formed. */
  function Utf8Width(s: seq<Byte>): (w: nat)
    requires |s| > 0
    ensures w <= 4 && w <= |s|
    ensures s[0] < 0x80 ==> w == 1
    ensures s[0] >= 0xF5 || 0x80 <= s[0] < 0xC2 ==> w == 0
  {
    var b := s[0];
    if b < 0x80 then 1
    else if 0xC2 <= b <= 0xDF then
      if |s| >= 2 && Continuation(s[1]) then 2 else 0
    else if b == 0xE0 then
      if |s| >= 3 && 0xA0 <= s[1] <= 0xBF && Continuation(s[2]) then 3 else 0
    else if 0xE1 <= b <= 0xEC || 0xEE <= b <= 0xEF then
      if |s| >= 3 && Continuation(s[1]) && Continuation(s[2]) then 3 else 0
    else if b == 0xED then
      if |s| >= 3 && 0x80 <= s[1] <= 0x9F && Continuation(s[2]) then 3 else 0
    else if b == 0xF0 then
      if |s| >= 4 && 0x90 <= s[1] <= 0xBF && Continuation(s[2]) && Continuation(s[3]) then 4 else 0
    else if 0xF1 <= b <= 0xF3 then
      if |s| >= 4 && Continuation(s[1]) && Continuation(s[2]) && Continuation(s[3]) then 4 else 0
    else if b == 0xF4 then
      if |s| >= 4 && 0x80 <= s[1] <= 0x8F && Continuation(s[2]) && Continuation(s[3]) then 4 else 0
    else 0
  }

  predicate Continuation(b: Byte) {
    0x80 <= b <= 0xBF
  }

  /** The bytes form a sequence of well-formed UTF-8 characters. */
  predicate ValidUtf8(s: seq<Byte>)
    decreases |s|
  {
    |s| == 0 || (Utf8Width(s) > 0 && ValidUtf8(s[Utf8Width(s)..]))
  }

  /** `OsStr::to_str`: the same bytes, now known to be a `str`, when they
      are valid UTF-8. */
  function ToStr(os: seq<Byte>): (r: Option<seq<Byte>>)
    ensures r.Some? <==> ValidUtf8(os)
    ensures r.Some? ==> r.value == os
  {
    if ValidUtf8(os) then Some(os) else None
  }

  /** Every ASCII byte string is valid UTF-8. */
  lemma {:induction false} AsciiIsUtf8(s: seq<Byte>)
    requires forall i :: 0 <= i < |s| ==> s[i] < 0x80
    ensures ValidUtf8(s)
    decreases |s|
  {
    if |s| > 0 {
      assert Utf8Width(s) == 1;
      AsciiIsUtf8(s[1..]);
    }
  }

  /** A byte that can never occur in UTF-8 makes the whole string invalid. */
  lemma {:induction false} ForbiddenByteIsNotUtf8(s: seq<Byte>, k: nat)
    requires k < |s| && (s[k] == 0xC0 || s[k] == 0xC1 || s[k] >= 0xF5)
    ensures !ValidUtf8(s)
    decreases |s|
  {
    if Utf8Width(s) > 0 {
      var w := Utf8Width(s);
      if k < w {
        assert false;
      }
      ForbiddenByteIsNotUtf8(s[w..], k - w);
    }
  }
}

=== FILE: provider.dfy ===
/** `FileIconProvider`: the platform-independent memoising provider. Its
    cache is an ordered map from (requested size, file extension) to the
    converted icon; the icon itself comes from the platform primitive. */
module Provider {
  import opened Base
  import opened Paths
  import Memo

  /** The cache key: the requested size and the raw extension bytes. */
  datatype Key = Key(size: U16, extension: seq<Byte>)

  /** The cache and the caller's converter, fixed at construction. */
  datatype FileIconProvider<T> = FileIconProvider(cache: map<Key, T>, convert: Icon -> T)

  /** The provider after a call, the value returned, and the primitive
      invocations the call made, in order. */
  datatype Answer<T> = Answer(provider: FileIconProvider<T>, value: Option<T>, calls: seq<Request>)

  /** `FileIconProvider::new`. */
  function New<T>(convert: Icon -> T): (p: FileIconProvider<T>)
    ensures p.cache == map[]
    ensures p.convert == convert
  {
    FileIconProvider(map[], convert)
  }

  /** The key a request is cached under; none without an extension. */
  function KeyOf(path: Path, size: U16): (k: Option<Key>)
    ensures k.Some? <==> Extension(path).Some?
    ensures k.Some? ==> k.value.size == size && k.value.extension == Extension(path).value
  {
    match Extension(path)
    case None => None
    case Some(e) => Some(Key(size, e))
  }

  /** `FileIconProvider::icon`. */
  function GetIcon<T>(p: FileIconProvider<T>, os: Primitive, path: Path, size: U16): (r: Answer<T>)
    ensures r.provider.convert == p.convert
    // the primitive is called at most once, and only for this request ...
    ensures r.calls == [] || r.calls == [Request(path, size)]
    // ... and not at all exactly when the (size, extension) entry exists
    ensures r.calls == [] <==> KeyOf(path, size).Some? && KeyOf(path, size).value in p.cache
    ensures r.calls == [] ==> r.value == Some(p.cache[KeyOf(path, size).value])
    ensures r.calls != [] ==> r.value == MapOption(os(path, size), p.convert)
    // no extension, or a failed primitive: the cache is left as it was
    ensures Extension(path).None? || r.value.None? ==> r.provider.cache == p.cache
    // nothing is evicted or replaced; at most the requested key is added
    ensures forall k :: k in p.cache ==> k in r.provider.cache && r.provider.cache[k] == p.cache[k]
    ensures forall k :: k in r.provider.cache ==> k in p.cache || KeyOf(path, size) == Some(k)
    ensures KeyOf(path, size).Some? && r.value.Some? ==>
      KeyOf(path, size).value in r.provider.cache && r.provider.cache[KeyOf(path, size).value] == r.value.value
  {
    var key := KeyOf(path, size);
    var l := Memo.GetOrFetch(p.cache, key, MapOption(os(path, size), p.convert));
    Answer(p.(cache := l.cache), l.value, if l.called then [Request(path, size)] else [])
  }

  /** `FileIconProvider::clear`. */
  function Clear<T>(p: FileIconProvider<T>): (r: FileIconProvider<T>)
    ensures r.cache == map[]
    ensures r.convert == p.convert
  {
    p.(cache := map[])
  }

  /** Two files with the same extension, asked for at the same size: the
      second request is served from the cache, whatever the OS would now
      answer, with the value the first one returned. */
  lemma SameExtensionHits<T>(p: FileIconProvider<T>, os: Primitive, later: Primitive, a: Path, b: Path, size: U16)
    requires Extension(a).Some? && Extension(a) == Extension(b)
    requires GetIcon(p, os, a, size).value.Some?
    ensures GetIcon(GetIcon(p, os, a, size).provider, later, b, size).calls == []
    ensures GetIcon(GetIcon(p, os, a, size).provider, later, b, size).value == GetIcon(p, os, a, size).value
  {
  }

  /** A failed lookup leaves no trace: repeating it calls the primitive again. */
  lemma FailureIsRetried<T>(p: FileIconProvider<T>, os: Primitive, later: Primitive, path: Path, size: U16)
    requires GetIcon(p, os, path, size).value.None?
    ensures GetIcon(GetIcon(p, os, path, size).provider, later, path, size).calls == [Request(path, size)]
  {
  }

  /** The size is part of the key: a lookup at one size never touches the
      entry of the same extension at another size, and finding that entry
      does not spare the primitive call. */
  lemma SizesAreIndependent<T>(p: FileIconProvider<T>, os: Primitive, path: Path, size: U16, other: U16)
    requires Extension(path).Some? && size != other
    requires Key(size, Extension(path).value) !in p.cache
    ensures GetIcon(p, os, path, size).calls == [Request(path, size)]
    ensures var k := Key(other, Extension(path).value);
      k in p.cache ==> GetIcon(p, os, path, size).provider.cache[k] == p.cache[k]
  {
  }

  /** After `clear`, a lookup for a path with an extension calls the
      primitive exactly once, even if its key was cached before. */
  lemma ClearForcesRefetch<T>(p: FileIconProvider<T>, os: Primitive, path: Path, size: U16)
    ensures GetIcon(Clear(p), os, path, size).calls == [Request(path, size)]
  {
  }

  /** The cache rests on one assumption: the OS gives every file with the
      same extension the same icon at a given size. */
  ghost predicate ExtensionDetermined(os: Primitive) {
    forall a: Path, b: Path, size: U16 ::
      Extension(a).Some? && Extension(a) == Extension(b) ==> os(a, size) == os(b, size)
  }

  /** The cached value for `k` is the converted icon the OS gives `path`. */
  ghost predicate EntryAgrees<T>(p: FileIconProvider<T>, os: Primitive, k: Key, path: Path)
    requires k in p.cache
  {
    Extension(path) == Some(k.extension) ==>
      os(path, k.size).Some? && p.cache[k] == p.convert(os(path, k.size).value)
  }

  /** Every entry agrees with what the OS would answer for any file with
      that extension at that size. */
  ghost predicate Faithful<T>(p: FileIconProvider<T>, os: Primitive) {
    forall k, path :: k in p.cache ==> EntryAgrees(p, os, k, path)
  }

  /** Under the assumption above, the cache is invisible: every lookup returns
      exactly what calling the primitive and converting would return, and
      the cache stays faithful. */
  lemma CacheIsTransparent<T>(p: FileIconProvider<T>, os: Primitive, path: Path, size: U16)
    requires ExtensionDetermined(os)
    requires Faithful(p, os)
    ensures GetIcon(p, os, path, size).value == MapOption(os(path, size), p.convert)
    ensures Faithful(GetIcon(p, os, path, size).provider, os)
  {
    var r := GetIcon(p, os, path, size);
    if r.calls == [] {
      var k := KeyOf(path, size).value;
      assert EntryAgrees(p, os, k, path);
    }
    forall k, q | k in r.provider.cache
      ensures EntryAgrees(r.provider, os, k, q)
    {
      if k in p.cache {
        assert EntryAgrees(p, os, k, q);
      } else if Extension(q) == Some(k.extension) {
        assert os(q, size) == os(path, size);
      }
    }
  }

  /** A sequence of `icon` calls on one provider, the OS answering `os`. The
      value is that of the last call. */
  function Replay<T>(p: FileIconProvider<T>, os: Primitive, reqs: seq<Request>): (r: Answer<T>)
    ensures r.provider.convert == p.convert
    ensures |r.calls| <= |reqs|
    ensures forall k :: k in p.cache ==> k in r.provider.cache && r.provider.cache[k] == p.cache[k]
    decreases |reqs|
  {
    if |reqs| == 0 then Answer(p, None, [])
    else
      var first := GetIcon(p, os, reqs[0].path, reqs[0].size);
      var rest := Replay(first.provider, os, reqs[1..]);
      Answer(rest.provider, rest.value, first.calls + rest.calls)
  }

  /** The keys a sequence of requests can be cached under. */
  function RequestKeys(reqs: seq<Request>): set<Key>
  {
    set i | 0 <= i < |reqs| && KeyOf(reqs[i].path, reqs[i].size).Some? :: KeyOf(reqs[i].path, reqs[i].size).value
  }

  /** While the OS answers, every primitive call of a replay adds one entry,
      and every entry added belongs to one of the requests. */
  lemma {:induction false} ReplayCallsAddEntries<T>(p: FileIconProvider<T>, os: Primitive, reqs: seq<Request>)
    requires forall i :: 0 <= i < |reqs| ==> KeyOf(reqs[i].path, reqs[i].size).Some?
    requires forall i :: 0 <= i < |reqs| ==> os(reqs[i].path, reqs[i].size).Some?
    ensures |Replay(p, os, reqs).calls| + |p.cache| == |Replay(p, os, reqs).provider.cache|
    ensures Replay(p, os, reqs).provider.cache.Keys <= p.cache.Keys + RequestKeys(reqs)
    decreases |reqs|
  {
    if |reqs| > 0 {
      var first := GetIcon(p, os, reqs[0].path, reqs[0].size);
      var k := KeyOf(reqs[0].path, reqs[0].size).value;
      FirstCallAddsEntry(p, os, reqs[0]);
      ReplayCallsAddEntries(first.provider, os, reqs[1..]);
      RequestKeysCons(reqs);
    }
  }

  /** A successful cacheable call either hits or adds exactly its own key. */
  lemma FirstCallAddsEntry<T>(p: FileIconProvider<T>, os: Primitive, req: Request)
    requires KeyOf(req.path, req.size).Some? && os(req.path, req.size).Some?
    ensures var first := GetIcon(p, os, req.path, req.size);
      |first.calls| + |p.cache| == |first.provider.cache|
      && first.provider.cache.Keys == p.cache.Keys + {KeyOf(req.path, req.size).value}
  {
    var first := GetIcon(p, os, req.path, req.size);
    var k := KeyOf(req.path, req.size).value;
    if first.calls == [] {
      assert first.provider.cache == p.cache;
    } else {
      assert first.provider.cache == p.cache[k := first.value.value];
    }
  }

  lemma RequestKeysCons(reqs: seq<Request>)
    requires |reqs| > 0 && KeyOf(reqs[0].path, reqs[0].size).Some?
    ensures RequestKeys(reqs) == {KeyOf(reqs[0].path, reqs[0].size).value} + RequestKeys(reqs[1..])
  {
    forall x | x in RequestKeys(reqs[1..])
      ensures x in RequestKeys(reqs)
    {
      var i :| 0 <= i < |reqs[1..]| && KeyOf(reqs[1..][i].path, reqs[1..][i].size) == Some(x);
      assert reqs[i + 1] == reqs[1..][i];
    }
  }

  /** The point of the cache: while the OS answers, a fresh provider calls
      the primitive at most once per distinct (size, extension) pair, however
      many requests it serves. */
  lemma ReplayCallsAtMostOncePerKey<T>(convert: Icon -> T, os: Primitive, reqs: seq<Request>)
    requires forall i :: 0 <= i < |reqs| ==> KeyOf(reqs[i].path, reqs[i].size).Some?
    requires forall i :: 0 <= i < |reqs| ==> os(reqs[i].path, reqs[i].size).Some?
    ensures |Replay(New(convert), os, reqs).calls| <= |RequestKeys(reqs)|
  {
    ReplayCallsAddEntries(New(convert), os, reqs);
    var cache := Replay(New(convert), os, reqs).provider.cache;
    SubsetCardinality(cache.Keys, RequestKeys(reqs));
  }

  lemma {:induction false} SubsetCardinality<X>(a: set<X>, b: set<X>)
    requires a <= b
    ensures |a| <= |b|
    decreases |a|
  {
    if a != {} {
      var x :| x in a;
      SubsetCardinality(a - {x}, b - {x});
    }
  }
}

=== FILE: windows.dfy ===
/** The Windows backend: the per-thread COM initialisation counter, the
    Shell/GDI primitive with its BGRA-to-RGBA swap, and the provider, which
    keeps COM initialised for its lifetime and caches nothing. */
module Windows {
  import opened Base

  // ---------------------------------------------------------------------
  // COM initialisation counter
  // ---------------------------------------------------------------------

  /** The thread-local `CO_INIT_COUNT`, and whether this crate's own
      `CoInitialize` is outstanding on the thread: it succeeded and has not
      yet been matched by a `CoUninitialize`. COM initialised by other code
      on the thread is not part of this state. */
  datatype Com = Com(count: U32, initialized: bool)

  /** The counter tracks the crate's own initialisation: its `CoInitialize`
      is outstanding exactly while the count is positive. */
  predicate Tracks(c: Com) {
    c.initialized <==> c.count > 0
  }

  /** The OS calls a counter operation makes. */
  datatype ComCall = CoInitialize | CoUninitialize

  datatype ComStep = ComStep(com: Com, ok: bool, calls: seq<ComCall>)

  /** `com::initialize`. Only the first acquirer calls `CoInitialize`; when
      that fails nothing changes. The increment must not overflow `u32`. */
  function Initialize(c: Com, coInitializeOk: bool): (r: ComStep)
    requires c.count < U32_LIMIT - 1
    ensures r.calls == (if c.count == 0 then [CoInitialize] else [])
    ensures r.ok <==> c.count > 0 || coInitializeOk
    ensures r.ok ==> r.com.count == c.count + 1
    ensures !r.ok ==> r.com == c
    ensures Tracks(c) ==> Tracks(r.com)
  {
    if c.count == 0 then
      if coInitializeOk then ComStep(Com(1, true), true, [CoInitialize])
      else ComStep(c, false, [CoInitialize])
    else ComStep(c.(count := c.count + 1), true, [])
  }

  /** `com::unitialize`. Only the last releaser calls `CoUninitialize`; the
      decrement must not underflow `u32`, so the counter must be positive. */
  function Uninitialize(c: Com): (r: ComStep)
    requires c.count > 0
    ensures r.calls == (if c.count == 1 then [CoUninitialize] else [])
    ensures r.com.count == c.count - 1
    ensures Tracks(c) ==> Tracks(r.com)
  {
    if c.count == 1 then ComStep(Com(0, false), true, [CoUninitialize])
    else ComStep(c.(count := c.count - 1), true, [])
  }

  /** A successful `initialize` followed by `unitialize` restores the
      counter and the crate's own COM state; the OS sees a matched pair of
      calls or none. */
  lemma InitializeUninitializeBalanced(c: Com, coInitializeOk: bool)
    requires c.count < U32_LIMIT - 1 && Tracks(c)
    requires Initialize(c, coInitializeOk).ok
    ensures Uninitialize(Initialize(c, coInitializeOk).com).com == c
    ensures Initialize(c, coInitializeOk).calls + Uninitialize(Initialize(c, coInitializeOk).com).calls
         == (if c.count == 0 then [CoInitialize, CoUninitialize] else [])
  {
  }

  // ---------------------------------------------------------------------
  // BGRA to RGBA
  // ---------------------------------------------------------------------

  /** `chunks_exact_mut(4)` with `swap(0, 2)`: blue and red trade places in
      every whole 4-byte pixel; a trailing partial chunk is left alone. */
  function Swapped(pixels: seq<Byte>): (r: seq<Byte>)
    ensures |r| == |pixels|
    decreases |pixels|
  {
    if |pixels| < 4 then pixels
    else [pixels[2], pixels[1], pixels[0], pixels[3]] + Swapped(pixels[4..])
  }

  /** Where the byte that `Swapped` puts at `i` comes from. */
  function SwapSource(i: nat, len: nat): nat {
    if i >= len - len % 4 then i
    else if i % 4 == 0 then i + 2
    else if i % 4 == 2 then i - 2
    else i
  }

  /** Bytes 0 and 2 of each whole pixel are exchanged; bytes 1 and 3, and
      the bytes of a trailing partial pixel, stay where they are. */
  lemma {:induction false} SwappedBytes(pixels: seq<Byte>)
    ensures forall i :: 0 <= i < |pixels| ==> SwapSource(i, |pixels|) < |pixels|
    ensures forall i :: 0 <= i < |pixels| ==> Swapped(pixels)[i] == pixels[SwapSource(i, |pixels|)]
    decreases |pixels|
  {
    if |pixels| >= 4 {
      var rest := pixels[4..];
      SwappedBytes(rest);
      var s := Swapped(pixels);
      forall i | 0 <= i < |pixels|
        ensures SwapSource(i, |pixels|) < |pixels| && s[i] == pixels[SwapSource(i, |pixels|)]
      {
        if i >= 4 {
          SwapSourceShift(i, |pixels|);
          assert s[i] == Swapped(rest)[i - 4];
        } else {
          assert |pixels| - |pixels| % 4 >= 4;
        }
      }
    }
  }

  /** Past the first pixel, sources shift with the pixel. */
  lemma SwapSourceShift(i: nat, len: nat)
    requires 4 <= i < len
    ensures SwapSource(i, len) == SwapSource(i - 4, len - 4) + 4
  {
    assert (len - 4) % 4 == len % 4;
    assert (i - 4) % 4 == i % 4;
  }

  /** Swapping twice gives back the original bytes. */
  lemma {:induction false} SwappedTwice(pixels: seq<Byte>)
    ensures Swapped(Swapped(pixels)) == pixels
    decreases |pixels|
  {
    if |pixels| >= 4 {
      var once := Swapped(pixels);
      assert once[4..] == Swapped(pixels[4..]);
      SwappedTwice(pixels[4..]);
      assert pixels == pixels[..4] + pixels[4..];
    }
  }

  /** The in-place loop over the pixel buffer, on a copy of it. */
  method SwapChunks(pixels: seq<Byte>) returns (r: seq<Byte>)
    ensures |r| == |pixels|
    ensures forall i :: 0 <= i < |pixels| ==> r[i] == pixels[SwapSource(i, |pixels|)]
  {
    r := pixels;
    var start := 0;
    while start + 4 <= |r|
      invariant |r| == |pixels|
      invariant start % 4 == 0 && start <= |pixels|
      invariant start + 4 > |pixels| ==> start == |pixels| - |pixels| % 4
      invariant forall i :: 0 <= i < start ==> SwapSource(i, |pixels|) < |pixels| && r[i] == pixels[SwapSource(i, |pixels|)]
      invariant forall i :: start <= i < |pixels| ==> r[i] == pixels[i]
      decreases |r| - start
    {
      var blue := r[start];
      r := r[start := r[start + 2]][start + 2 := blue];
      start := start + 4;
    }
  }

  /** The loop and the recursive definition agree. */
  lemma SwapChunksComputesSwapped(pixels: seq<Byte>, r: seq<Byte>)
    requires |r| == |pixels|
    requires forall i :: 0 <= i < |pixels| ==> r[i] == pixels[SwapSource(i, |pixels|)]
    ensures r == Swapped(pixels)
  {
    SwappedBytes(pixels);
  }

  // ---------------------------------------------------------------------
  // The primitive
  // ---------------------------------------------------------------------

  /** An `HBITMAP` handle. */
  datatype HBitmap = HBitmap(handle: nat)

  /** The `BITMAP` that `GetObjectW` fills in. */
  datatype BitmapObject = BitmapObject(bmWidth: nat, bmHeight: nat)

  /** What the Shell and GDI answer; each is a black box to the model. */
  datatype Shell = Shell(
    coInitializeOk: bool,                       // CoInitialize succeeds
    getImage: (Path, U16) -> Option<HBitmap>,   // SHCreateItemFromParsingName, then GetImage
    getObject: HBitmap -> Option<BitmapObject>, // GetObjectW, None when it returns 0
    getDIBits: HBitmap -> bool,                 // GetDIBits returns non-zero
    bits: (HBitmap, nat) -> Byte                // byte i of the top-down 32-bit BGRA rows it writes
  )

  /** The pixel buffer `stride * bmHeight` long, with `stride = bmWidth * 4`. */
  function BufferLength(b: BitmapObject): nat {
    b.bmWidth * 4 * b.bmHeight
  }

  /** The icon read back from the Shell's bitmap, COM already initialised. */
  function ReadIcon(shell: Shell, path: Path, size: U16): (r: Option<Icon>)
    // an icon exists exactly when the Shell has an image and GDI describes
    // and copies it
    ensures r.Some? <==>
      && shell.getImage(path, size).Some?
      && shell.getObject(shell.getImage(path, size).value).Some?
      && shell.getDIBits(shell.getImage(path, size).value)
    ensures r.Some? ==> r.value.width == size && r.value.height == size
    ensures r.Some? ==>
      && shell.getImage(path, size).Some?
      && var h := shell.getImage(path, size).value;
         shell.getObject(h).Some? && shell.getDIBits(h)
         && |r.value.pixels| == BufferLength(shell.getObject(h).value)
         && r.value.pixels == Swapped(seq(BufferLength(shell.getObject(h).value), (i: int) requires 0 <= i => shell.bits(h, i)))
  {
    match shell.getImage(path, size)
    case None => None
    case Some(h) =>
      match shell.getObject(h)
      case None => None
      case Some(bmp) =>
        if !shell.getDIBits(h) then None
        else
          var bgra := seq<Byte>(BufferLength(bmp), (i: int) requires 0 <= i => shell.bits(h, i));
          Some(Icon(size, size, Swapped(bgra)))
  }

  /** The counter after a call, the icon, and the COM calls made. */
  datatype Fetch = Fetch(com: Com, icon: Option<Icon>, calls: seq<ComCall>)

  /** `get_file_icon(path, size)`: `initialize`, then on every exit path
      after it the deferred `unitialize`. */
  function GetFileIconOnce(com: Com, shell: Shell, path: Path, size: U16): (r: Fetch)
    requires com.count < U32_LIMIT - 1
    // the counter on exit equals the counter on entry
    ensures r.com.count == com.count
    ensures Tracks(com) ==> r.com == com
    // COM is brought up and down around the call only when nothing else holds it
    ensures r.calls == (if com.count > 0 then []
                        else if shell.coInitializeOk then [CoInitialize, CoUninitialize]
                        else [CoInitialize])
    ensures com.count == 0 && !shell.coInitializeOk ==> r.icon.None?
    // with COM up, the icon is what the Shell's bitmap holds
    ensures com.count > 0 || shell.coInitializeOk ==> r.icon == ReadIcon(shell, path, size)
    ensures r.icon.Some? ==> r.icon.value.width == size && r.icon.value.height == size
  {
    var init := Initialize(com, shell.coInitializeOk);
    if !init.ok then Fetch(init.com, None, init.calls)
    else
      var icon := ReadIcon(shell, path, size);
      var done := Uninitialize(init.com);
      Fetch(done.com, icon, init.calls + done.calls)
  }

  /** A successful icon is the GDI buffer, bytes 0 and 2 of each pixel
      exchanged, and swapping again recovers what GDI wrote. */
  lemma IconIsSwappedBuffer(com: Com, shell: Shell, path: Path, size: U16)
    requires com.count < U32_LIMIT - 1
    requires GetFileIconOnce(com, shell, path, size).icon.Some?
    ensures var h := shell.getImage(path, size).value;
      var bmp := shell.getObject(h).value;
      var pixels := GetFileIconOnce(com, shell, path, size).icon.value.pixels;
      |pixels| == BufferLength(bmp)
      && (forall i :: 0 <= i < |pixels| ==> pixels[i] == shell.bits(h, SwapSource(i, |pixels|)))
      && Swapped(pixels) == seq(BufferLength(bmp), (i: int) requires 0 <= i => shell.bits(h, i))
  {
    var h := shell.getImage(path, size).value;
    var bmp := shell.getObject(h).value;
    var bgra := seq<Byte>(BufferLength(bmp), (i: int) requires 0 <= i => shell.bits(h, i));
    SwappedBytes(bgra);
    SwappedTwice(bgra);
  }

  // ---------------------------------------------------------------------
  // The provider
  // ---------------------------------------------------------------------

  /** The provider holds only its size and converter: no cache. */
  datatype Provider<T> = Provider(iconSize: U16, converter: Icon -> T)

  datatype Created<T> = Created(provider: Option<Provider<T>>, com: Com, calls: seq<ComCall>)

  /** `Provider::new` as written: calls `initialize`, ignores its result and
      always returns a provider. */
  function NewAsWritten<T>(com: Com, coInitializeOk: bool, iconSize: U16, converter: Icon -> T): (r: Created<T>)
    requires com.count < U32_LIMIT - 1
    ensures r.provider == Some(Provider(iconSize, converter))
    ensures r.com == Initialize(com, coInitializeOk).com
    ensures r.calls == (if com.count == 0 then [CoInitialize] else [])
  {
    var init := Initialize(com, coInitializeOk);
    Created(Some(Provider(iconSize, converter)), init.com, init.calls)
  }

  /** As written, a provider created while `CoInitialize` fails on a fresh
      thread leaves the counter at 0, so the `unitialize` in its `drop`
      computes `0u32 - 1`: an overflow panic in debug builds, and a counter
      wrapped to `u32::MAX` in release builds. */
  lemma NewAsWrittenUnderflowsOnDrop<T>(iconSize: U16, converter: Icon -> T)
    ensures NewAsWritten(Com(0, false), false, iconSize, converter).provider.Some?
    ensures NewAsWritten(Com(0, false), false, iconSize, converter).com.count == 0
  {
  }

  /** `Provider::new` with its `initialize` result honoured: no provider
      exists unless it holds one COM reference. */
  function New<T>(com: Com, coInitializeOk: bool, iconSize: U16, converter: Icon -> T): (r: Created<T>)
    requires com.count < U32_LIMIT - 1
    ensures r.provider.Some? <==> com.count > 0 || coInitializeOk
    ensures r.provider.Some? ==> r.provider.value == Provider(iconSize, converter) && r.com.count == com.count + 1
    ensures r.provider.None? ==> r.com == com
    ensures Tracks(com) ==> Tracks(r.com)
  {
    var init := Initialize(com, coInitializeOk);
    Created(if init.ok then Some(Provider(iconSize, converter)) else None, init.com, init.calls)
  }

  /** `drop`: releases the COM reference the dropped provider `p` holds;
      its size and converter play no part. */
  function Drop<T>(p: Provider<T>, com: Com): (r: ComStep)
    requires com.count > 0
    ensures r.com.count == com.count - 1
    ensures r.calls == (if com.count == 1 then [CoUninitialize] else [])
  {
    Uninitialize(com)
  }

  /** With the correction, every created provider can be dropped, and
      creating then dropping it restores the counter and the OS state. */
  lemma NewThenDropBalanced<T>(com: Com, coInitializeOk: bool, iconSize: U16, converter: Icon -> T)
    requires com.count < U32_LIMIT - 1 && Tracks(com)
    requires New(com, coInitializeOk, iconSize, converter).provider.Some?
    ensures New(com, coInitializeOk, iconSize, converter).com.count > 0
    ensures Drop(New(com, coInitializeOk, iconSize, converter).provider.value,
                 New(com, coInitializeOk, iconSize, converter).com).com == com
  {
  }

  datatype Answer<T> = Answer(com: Com, value: Option<T>, calls: seq<Request>, comCalls: seq<ComCall>)

  /** `Provider::get_file_icon`: no cache, so every call goes to the one-shot
      lookup, which asks the Shell whenever COM is up. */
  function GetFileIcon<T>(p: Provider<T>, com: Com, shell: Shell, path: Path): (r: Answer<T>)
    requires com.count < U32_LIMIT - 1
    ensures r.calls == [Request(path, p.iconSize)]
    ensures r.com.count == com.count
    ensures Tracks(com) ==> r.com == com
    // while a provider holds COM, lookups never bring it up or down
    ensures com.count > 0 ==> r.comCalls == []
    ensures com.count > 0 || shell.coInitializeOk ==> r.value == MapOption(ReadIcon(shell, path, p.iconSize), p.converter)
    ensures com.count == 0 && !shell.coInitializeOk ==> r.value.None?
  {
    var f := GetFileIconOnce(com, shell, path, p.iconSize);
    Answer(f.com, MapOption(f.icon, p.converter), [Request(path, p.iconSize)], f.calls)
  }

  /** With no cache, a repeated request is answered afresh: if the Shell's
      answer changes, so does the provider's. */
  lemma RepeatedRequestIsNotCached<T>(p: Provider<T>, com: Com, shell: Shell, later: Shell, path: Path)
    requires com.count > 0 && com.count < U32_LIMIT - 1 && Tracks(com)
    ensures var first := GetFileIcon(p, com, shell, path);
      GetFileIcon(p, first.com, later, path).value == MapOption(ReadIcon(later, path, p.iconSize), p.converter)
  {
  }
}
